=== FILE: README.md ===
# Parking lot tracker — Dafny model

This project models the state machine at the heart of `park.py`, a small
parking-lot tracker. The lot is an ordered sequence of spaces laid out as
`rows` rows of `space_count = total_spaces // rows` slots. Each space is empty
or holds a vehicle (type code 1 car, 2 truck, 3 motorcycle; a plate; an entry
time). A counter `avail_spaces` tracks the free slots. The user can park a
vehicle at a (row, column), remove it and pay an hourly fare, or look at it.
The program also defines a text renderer for one row (`print_row`), which no
code path calls. The lot size comes from a configuration file with
`total_spaces = N` and `rows = R` lines.

The model keeps the logic and drops the user interface. Every operation is a
pure function from one immutable `Lot` to the next. The clock reading (`now`)
and the row, column, category and plate chosen in the widgets are parameters.
The central invariant is `Lot.Valid`: the counter equals the number of free
slots, and every slot's occupancy flag agrees with its stored vehicle. It
holds after initialisation, and park, exit and view preserve it, one step at a
time (`ParkingLot.Park`, `ParkingLot.Exit`) and over any run of actions
(`Session.Run`).

Modules:
- `Wrappers`: `Option` and `Result`.
- `Vehicles`: categories, type codes, display names, hourly rates.
- `Fares`: the hours charged and the fare in cents.
- `Spaces`: one slot and its add/remove operations.
- `ParkingLot`: the lot, its invariant, initialisation, slot indexing, park, exit and view.
- `RowRender`: the text rendering of a row.
- `Config`: the configuration-line loop.
- `Session`: opening a lot from configuration lines and running actions on it.

## Model

| member | source | states |
|---|---|---|
| `Vehicles.TypeCode` | park.py:88 | every category is stored as a code between 1 and 3 |
| `Vehicles.KindOfCode` | park.py:14-21 | a code denotes a category exactly when it is 1, 2 or 3, and the category's code is that code |
| `Vehicles.TypeCodeRoundTrip` | park.py:88 | decoding a category's code gives the category back |
| `Vehicles.TypeString` | park.py:20-21 | the display name is "Car" for code 1, "Truck" for code 2 and "Motorcycle" otherwise |
| `Vehicles.TypeMap` | park.py:82-88 | a selector option maps to a category whose display name is that option |
| `Vehicles.TypeMapRoundTrip` | park.py:20-21 | looking up a category's display name gives the category back, and distinct categories have distinct names |
| `Vehicles.RateCents` | park.py:114 | the hourly rate is 350, 450 or 200 cents for codes 1, 2 and 3 |
| `Fares.Hours` | park.py:113 | at least one hour is charged; the stay is shorter than the hours charged; for a non-negative stay, one hour fewer would not cover it; a negative stay is charged one hour |
| `Fares.HoursIsLeast` | park.py:113 | the hours charged are the least positive hour count longer than the stay |
| `Fares.HoursMonotone` | park.py:113 | a longer stay is never charged fewer hours |
| `Fares.FareCents` | park.py:115 | the fare is a whole number of hourly rates, at least one, and that number is the hours charged |
| `Fares.FareMonotone` | park.py:112-115 | a longer stay never costs less |
| `Fares.FareExamples` | park.py:112-115 | 0 s, 1 s and 3599 s give 1 hour; 3600 s and 5400 s give 2 hours; 7200 s gives 3; a car for 5400 s owes 700 cents and a truck for 1 s owes 450 |
| `Spaces.Space.VehicleInfo` | park.py:48-49 | returns the held vehicle, `None` for an empty slot; a well-formed slot holds one exactly when it is not available |
| `Spaces.Space.IsAvailable` | park.py:51-52 | a well-formed slot is available exactly when it holds no vehicle |
| `Spaces.AddVehicle` | park.py:38-40 | after adding, the slot is occupied, well formed and holds exactly that vehicle |
| `Spaces.RemoveVehicle` | park.py:42-46 | removing returns exactly what the slot held and leaves it empty and available |
| `Spaces.EmptySpace` | park.py:34-36 | a new slot is empty and available |
| `Spaces.AddThenRemove` | park.py:38-46 | removing right after adding returns that vehicle and leaves a fresh slot |
| `Spaces.RemoveThenAdd` | park.py:38-46 | adding back what was removed from an occupied slot restores the slot |
| `ParkingLot.Lot.Valid` | park.py:92-111 | the invariant: positive rows, one slot per configured space, row width the floor quotient, every slot well formed, and the counter equal to the number of free slots (so between 0 and the lot size) |
| `ParkingLot.CountUpdate` | park.py:92-94 | replacing one slot changes the free-slot count by exactly the change in that slot's availability |
| `ParkingLot.CountPositive` | park.py:92 | a lot with a free slot has a positive free-slot count |
| `ParkingLot.CountFull` | park.py:59 | if the count equals the number of slots, every slot is free |
| `ParkingLot.CountEmpty` | park.py:58-59 | freshly allocated slots are all counted as free |
| `ParkingLot.FloorWidth` | park.py:60 | `rows` rows of the floor width `total // rows` fit in the total, and one more slot per row would not |
| `ParkingLot.Initialize` | park.py:56-60 | zero rows fails (the division by zero); otherwise the lot is valid with `total_spaces` empty slots, counter `total_spaces`, and a row width that is the floor of `total_spaces / rows` |
| `ParkingLot.SpaceIndex` | park.py:84-90 | an in-range (row, col) addresses a slot of that row, below `rows * space_count`, and inside the lot when it is valid |
| `ParkingLot.IndexInjective` | park.py:84-90 | distinct (row, col) pairs address distinct slots |
| `ParkingLot.AddressableIff` | park.py:84-90 | a slot is reachable from some (row, col) exactly when its index is below `rows * space_count` |
| `ParkingLot.TenSpacesThreeRows` | park.py:56-60 | ten spaces in three rows give rows of three, and the tenth slot is never addressed |
| `ParkingLot.Park` | park.py:88-97 | parking succeeds exactly when the counter is positive and the slot is free; then only that slot changes, now holding the new vehicle stamped with `now`, the counter drops by one, and the invariant holds; otherwise the error is "space unavailable" |
| `ParkingLot.ParkGuardAgrees` | park.py:92 | in a valid lot, parking succeeds exactly when the slot is free, so the counter guard never refuses on its own |
| `ParkingLot.Exit` | park.py:107-118 | exit succeeds exactly when the slot is occupied; then it returns that slot's vehicle, empties only that slot, raises the counter by one, keeps the invariant, and charges `Hours(now - entry)` times the rate; otherwise the error is "no vehicle" |
| `ParkingLot.View` | park.py:128-136 | view succeeds exactly when the slot is occupied and returns the vehicle stored there |
| `ParkingLot.ParkThenView` | park.py:128-131 | viewing a slot just parked in shows the vehicle with that category, plate and entry time |
| `ParkingLot.ParkLeavesOthers` | park.py:90-93 | parking at one slot changes what is seen at no other (row, col) |
| `ParkingLot.ParkThenExit` | park.py:107-115 | parking then exiting the same slot restores the lot and returns the vehicle, charged for the time in between |
| `ParkingLot.ExitThenPark` | park.py:109-111 | exiting then parking the same vehicle again restores the lot |
| `ParkingLot.CounterBounds` | park.py:92-94 | in a valid lot the counter lies between 0 and `total_spaces`, and a full counter means every slot is free |
| `RowRender.KindChar` | park.py:146-148 | an occupied cell shows one of `c`, `t`, `m` |
| `RowRender.CellText` | park.py:141-149 | every cell is three characters, opening with `[` and closing with `]` |
| `RowRender.CellRoundTrip` | park.py:141-149 | a cell's middle character is blank exactly for an empty slot and otherwise names the vehicle's category |
| `RowRender.RowPrefixStep` | park.py:140-151 | writing the next cell and, unless it is the last, one space extends a rendered prefix by one cell |
| `RowRender.RenderRange` | park.py:139-153 | the rendering of a slot range is `||` when empty and otherwise `2 + 4n - 1` characters long, with a bar at each end, each slot's cell in order and single spaces between cells |
| `RowRender.PrintRow` | park.py:138-153 | the rendering of row `r` has exactly `space_count` cells between bars, each the cell of slot `r * space_count + k`, separated by single spaces |
| `RowRender.PrintRowAsWritten` | park.py:141-149 | the code as written fails exactly when the row holds an occupied slot, and otherwise prints only empty cells |
| `RowRender.OccupiedRowCounterexample` | park.py:146-147 | a one-slot lot with a car parked has an occupied row slot whose corrected cell is `[c]` |
| `Config.SkipSpaces` | park.py:164 | the position found is the end of the whitespace run starting at the given position: everything before it is whitespace and the character there is not |
| `Config.BackSpaces` | park.py:164 | the end found cuts exactly the trailing whitespace off the given range: everything from it on is whitespace and the character before it is not |
| `Config.TrimLeft` | park.py:164 | the result is a suffix of the input, only whitespace was dropped, and it does not start with whitespace |
| `Config.TrimRight` | park.py:164 | the result is a prefix of the input, only whitespace was dropped, and it does not end with whitespace |
| `Config.Strip` | park.py:164 | the result is the input read from the end of its leading whitespace, everything outside it is whitespace, and neither end of a non-empty result is whitespace |
| `Config.StripIsTrims` | park.py:164 | stripping equals dropping the leading whitespace and then the trailing whitespace |
| `Config.StripIdempotent` | park.py:164 | stripping twice is stripping once |
| `Config.IndexOf` | park.py:166 | the position found holds the character and no earlier position does; absent means the character does not occur |
| `Config.SecondField` | park.py:166 | the field exists exactly when the line has an `=`; it is the text that starts right after the first `=` and runs to the next `=` or the end of the line |
| `Config.SecondFieldBetweenEquals` | park.py:166 | for `key=v=w` with no `=` in `key` or `v`, the field is exactly `v` |
| `Config.ParseNat` | park.py:166 | a value is read exactly from a non-empty string of decimal digits |
| `Config.NatToStringRoundTrip` | park.py:166 | the decimal numeral of a number reads back as that number |
| `Config.DigitsValueLeadingZero` | park.py:166 | a leading `0` does not change the value of a digit string |
| `Config.ParseNatLeadingZero` | park.py:166 | a numeral with a leading `0` reads as the same value as without it, so `05` reads as 5 |
| `Config.ParseNatValue` | park.py:166 | any run of zeros followed by the decimal numeral of `n` reads as `n`; every digit string has this form, so this fixes the value read |
| `Config.LineValue` | park.py:165-168 | a matching line without `=` is a missing-field error; a value is read exactly when the stripped field is a numeral, and it is that numeral's value |
| `Config.LineKey` | park.py:165-167 | a line sets `total_spaces` exactly when it starts with `total_spaces`, sets `rows` exactly when it starts with `rows` but not `total_spaces`, and sets nothing otherwise |
| `Config.ApplyLine` | park.py:164-168 | a line without a key changes nothing; a keyed line succeeds exactly when its value reads, then assigns that value to its key alone; a failure carries the value's error |
| `Config.ParseLines` | park.py:163-168 | if no line carries a key, the settings come out unchanged |
| `Config.SetOnlyByKeyLine` | park.py:163-168 | after a successful run, a setting differs from its starting value only if some line carries that setting's key |
| `Config.ParseConfig` | park.py:163-168 | both settings start at 0: a non-zero row count needs a `rows` line, a non-zero total needs a `total_spaces` line, and a file with no keyed line gives (0, 0) |
| `Config.ParseAppend` | park.py:163-168 | processing two batches of lines in a row is processing their concatenation |
| `Config.BadLineAborts` | park.py:165-168 | a `total_spaces` or `rows` line without `=` or with a value that does not read aborts the whole loop with that line's error, whatever lines follow |
| `Config.LastTotalWins` | park.py:165-166 | a well-formed `total_spaces` line overrides all earlier ones and leaves the row count alone |
| `Config.LastRowsWins` | park.py:167-168 | a well-formed `rows` line overrides all earlier ones and leaves the total alone |
| `Config.OtherLineIgnored` | park.py:163-168 | a line starting with neither key can be dropped wherever it stands |
| `Config.RenderParseRoundTrip` | park.py:163-168 | the two-line configuration `total_spaces = N`, `rows = R` parses to (N, R) |
| `Session.Step` | park.py:174-181 | a park is reported parked exactly when `Park` succeeds and the lot becomes `Park`'s result; an exit reports exactly `Exit`'s lot and receipt when it succeeds; a view reports exactly `View`'s vehicle; every action keeps the invariant and the layout; view and every refusal leave the lot unchanged; otherwise each action gives only its own error |
| `Session.Run` | park.py:174-181 | after any sequence of in-range actions the lot is valid (so the counter equals the free-slot count) and the layout is unchanged |
| `Session.Open` | park.py:160-170 | a lot opens exactly when the configuration parses with a positive row count; then it is valid, empty and sized by the configuration |
| `Session.BadLineOpensNothing` | park.py:163-170 | such a line means no lot is opened: the error is reported before `initialize_spaces` is reached |
| `Session.OpenRendered` | park.py:160-170 | the canonical configuration of a lot with positive rows opens as an empty lot of that size and shape |
| `Session.RunKeepsCounterInRange` | park.py:92-94 | over any run the counter stays between 0 and the number of slots |

## Left out

- The Streamlit widgets are not modelled: `st.write`, `st.columns`, buttons, selectors, number inputs, the file uploader and all of `display_lot` (park.py:63-75, 80-87, 156-160, 172-173). They are user-interface plumbing. What they feed the logic is modelled: the option list of the category selector (park.py:82, 88) is `Vehicles.TypeMap`, and the dispatch on the chosen menu option (park.py:174-181) is `Session.Action` with `Session.Step`. The bounds the number inputs impose (`0 <= row <= rows - 1`, `0 <= col <= space_count - 1`) become preconditions on row and column.
- The wall clock is not modelled: `time.time()`, `time.localtime` and `strftime` (park.py:18, 112, 132) are foreign calls. The entry time and `now` are parameters in whole seconds, and view returns the stored entry time unformatted.
- Fares.Hours: does not model sub-second clock readings. The source subtracts two float clock readings; the model takes whole seconds.
- Money is not floats here. The source multiplies hours by 3.50, 4.50 or 2.00 and prints `${cost:.2f}`; the model uses integer cents (350, 450, 200), and the formatting is left out.
- Config.ParseNat: accepts only non-empty ASCII decimal digit strings. Python `int()` also accepts a sign, underscores between digits and non-ASCII digits. A negative `total_spaces` would give the source a negative counter, and a negative `rows` a negative row width (`10 // -3 == -4` at park.py:60), which leaves the column input with a maximum below its minimum (park.py:84-85); the model refuses both as bad numbers.
- `bytes.decode("utf-8")` and the splitting of the uploaded file into lines (park.py:162-164) are library behaviour. The model takes the decoded lines.
- The source calls `initialize_spaces()` again on every Streamlit rerun (park.py:170), which is a framework artefact. The model builds the lot once (`Session.Open`) and threads it through the actions.
- `set_entry_time`, the globals `border` and `linux`, and the plain getters `get_plate` and `get_entry_time` are unused or trivial (park.py:10-11, 23-30). The getters are the datatype's fields; `vehicle_info` is `Spaces.Space.VehicleInfo`.
- `get_type_string` maps every code other than 1 and 2 to "Motorcycle" (park.py:21), and `print_row` does the same with `m`. The model's category type has exactly the three categories the selector offers, so the fallback branch has no counterpart.
- RowRender.PrintRow: requires `(row + 1) * space_count <= len(spaces)`. The source raises `IndexError` otherwise, and nothing in the source calls `print_row`.

Facts about the code that the model keeps:
- Park reports one error for a full lot and for an occupied slot (park.py:92-97).
- Initialisation accepts any total, including 0, and fails only for zero rows, through the division at park.py:60.
- Both park guards are kept (park.py:92); `ParkingLot.ParkGuardAgrees` shows the counter guard never decides alone in a valid lot.

## Findings

| source | as written | input that shows it | evidently intended | confidence | as-written member | corrected member |
|---|---|---|---|---|---|---|
| park.py:146-147 | `print_row` calls `vehicle_info().get_type()`, but `Vehicle` defines no `get_type` (only the field `type` and `get_type_string`), so the first occupied slot in the row raises `AttributeError` | a lot of one space in one row with a car parked at (0, 0), then `print_row(0)` | choose `c`/`t`/`m` from the vehicle's type code, giving the cell `[c]` between the two bars | high; not executed | `RowRender.PrintRowAsWritten` (with `RowRender.OccupiedRowCounterexample`) | `RowRender.PrintRow` |

=== FILE: config.dfy ===
/** The configuration loop: each uploaded line is stripped of surrounding
    whitespace; a line starting with `total_spaces` sets the slot total and
    one starting with `rows` sets the row count, from the text between the
    first `=` and the next one (or the end); every other line is ignored and
    later lines override earlier ones. Both values start at 0. */
module Config {
  import opened Wrappers

  datatype Settings = Settings(totalSpaces: nat, rows: nat)

  /** Why a configuration line aborts the loop: a matching line with no
      `=` has no second field, and a field that is not a decimal numeral
      does not convert to an integer. */
  datatype ConfigError = MissingEquals | BadNumber

  /** The characters the string strip operation removes at either end. */
  predicate IsSpace(c: char) {
    var n := c as int;
    || 9 <= n <= 13 || 28 <= n <= 32 || n == 0x85 || n == 0xA0 || n == 0x1680
    || 0x2000 <= n <= 0x200A || n == 0x2028 || n == 0x2029 || n == 0x202F
    || n == 0x205F || n == 0x3000
  }

  /** The first position at or after `i` that holds no whitespace, or `|s|`. */
  function SkipSpaces(s: string, i: nat): (n: nat)
    requires i <= |s|
    ensures i <= n <= |s|
    ensures forall j :: i <= j < n ==> IsSpace(s[j])
    ensures n < |s| ==> !IsSpace(s[n])
    decreases |s| - i
  {
    if i < |s| && IsSpace(s[i]) then SkipSpaces(s, i + 1) else i
  }

  /** The end of `s[lo..e]` once its trailing whitespace is cut off. */
  function BackSpaces(s: string, lo: nat, e: nat): (n: nat)
    requires lo <= e <= |s|
    ensures lo <= n <= e
    ensures forall j :: n <= j < e ==> IsSpace(s[j])
    ensures n > lo ==> !IsSpace(s[n - 1])
    decreases e
  {
    if e > lo && IsSpace(s[e - 1]) then BackSpaces(s, lo, e - 1) else e
  }

  /** Drops leading whitespace. */
  function TrimLeft(s: string): (r: string)
    ensures |r| <= |s| && r == s[|s| - |r|..]
    ensures forall i :: 0 <= i < |s| - |r| ==> IsSpace(s[i])
    ensures |r| > 0 ==> !IsSpace(r[0])
  {
    s[SkipSpaces(s, 0)..]
  }

  /** Drops trailing whitespace. */
  function TrimRight(s: string): (r: string)
    ensures |r| <= |s| && r == s[..|r|]
    ensures forall i :: |r| <= i < |s| ==> IsSpace(s[i])
    ensures |r| > 0 ==> !IsSpace(r[|r| - 1])
  {
    s[..BackSpaces(s, 0, |s|)]
  }

  /** Drops whitespace at both ends: the text between the leading run of
      whitespace and the trailing one. */
  function Strip(s: string): (r: string)
    ensures SkipSpaces(s, 0) + |r| <= |s|
    ensures forall k :: 0 <= k < |r| ==> r[k] == s[SkipSpaces(s, 0) + k]
    ensures forall j :: 0 <= j < SkipSpaces(s, 0) ==> IsSpace(s[j])
    ensures forall j :: SkipSpaces(s, 0) + |r| <= j < |s| ==> IsSpace(s[j])
    ensures |r| > 0 ==> !IsSpace(r[0]) && !IsSpace(r[|r| - 1])
  {
    var i := SkipSpaces(s, 0);
    s[i..BackSpaces(s, i, |s|)]
  }

  /** Cutting trailing whitespace off a suffix is cutting it off in place. */
  lemma {:induction false} BackSpacesShift(s: string, i: nat, e: nat)
    requires i <= e <= |s|
    ensures BackSpaces(s[i..], 0, e - i) == BackSpaces(s, i, e) - i
    decreases e
  {
    if e > i {
      assert s[i..][e - i - 1] == s[e - 1];
      if IsSpace(s[e - 1]) {
        BackSpacesShift(s, i, e - 1);
      }
    }
  }

  /** Stripping is dropping leading, then trailing, whitespace. */
  lemma StripIsTrims(s: string)
    ensures Strip(s) == TrimRight(TrimLeft(s))
  {
    var i := SkipSpaces(s, 0);
    BackSpacesShift(s, i, |s|);
  }

  /** A string that neither starts nor ends with whitespace is its own strip. */
  lemma StripNoop(s: string)
    requires |s| > 0 && !IsSpace(s[0]) && !IsSpace(s[|s| - 1])
    ensures Strip(s) == s
  {
    assert SkipSpaces(s, 0) == 0;
    assert BackSpaces(s, 0, |s|) == |s|;
  }

  /** Stripping twice is stripping once. */
  lemma StripIdempotent(s: string)
    ensures Strip(Strip(s)) == Strip(s)
  {
    var t := Strip(s);
    if |t| > 0 {
      StripNoop(t);
    }
  }

  predicate StartsWith(s: string, prefix: string) {
    |prefix| <= |s| && s[..|prefix|] == prefix
  }

  /** The position of the first `c` in `s`, if any. */
  function IndexOf(s: string, c: char): (r: Option<nat>)
    ensures r.Some? ==> r.value < |s| && s[r.value] == c
    ensures r.Some? ==> forall i :: 0 <= i < r.value ==> s[i] != c
    ensures r.None? ==> forall i :: 0 <= i < |s| ==> s[i] != c
  {
    if |s| == 0 then None
    else if s[0] == c then Some(0)
    else match IndexOf(s[1..], c)
      case None => None
      case Some(i) => Some(i + 1)
  }

  /** The second `=`-separated field of `line`: the text after the first
      `=` up to the next `=` or the end; absent when `line` has no `=`. */
  function SecondField(line: string): (r: Option<string>)
    ensures r.None? <==> '=' !in line
    ensures r.Some? ==> '=' !in r.value
    ensures r.Some? ==>
              var i := IndexOf(line, '=').value;
              && i + 1 + |r.value| <= |line|
              && r.value == line[i + 1 .. i + 1 + |r.value|]
              && (i + 1 + |r.value| == |line| || line[i + 1 + |r.value|] == '=')
  {
    match IndexOf(line, '=')
    case None => None
    case Some(i) =>
      var rest := line[i + 1..];
      match IndexOf(rest, '=')
      case None => Some(rest)
      case Some(j) => Some(rest[..j])
  }

  predicate IsDigit(c: char) {
    '0' <= c <= '9'
  }

  function DigitValue(c: char): nat
    requires IsDigit(c)
  {
    c as int - '0' as int
  }

  /** The value of a string of decimal digits, most significant first. */
  function DigitsValue(s: string): nat
    requires forall i :: 0 <= i < |s| ==> IsDigit(s[i])
  {
    if |s| == 0 then 0 else DigitsValue(s[..|s| - 1]) * 10 + DigitValue(s[|s| - 1])
  }

  /** Converts a non-empty decimal numeral; any other text is refused. */
  function ParseNat(s: string): (r: Option<nat>)
    ensures r.Some? <==> |s| > 0 && forall i :: 0 <= i < |s| ==> IsDigit(s[i])
  {
    if |s| > 0 && forall i :: 0 <= i < |s| ==> IsDigit(s[i]) then Some(DigitsValue(s)) else None
  }

  /** The decimal numeral of `n`, without leading zeros. */
  function NatToString(n: nat): (s: string)
    ensures |s| > 0
    ensures forall i :: 0 <= i < |s| ==> IsDigit(s[i])
  {
    var d := ['0' + (n % 10) as char];
    if n < 10 then d else NatToString(n / 10) + d
  }

  /** Printing a number and reading it back gives the number. */
  lemma {:induction false} NatToStringRoundTrip(n: nat)
    ensures ParseNat(NatToString(n)) == Some(n)
    ensures DigitsValue(NatToString(n)) == n
  {
    var s := NatToString(n);
    assert DigitValue(s[|s| - 1]) == n % 10;
    if n >= 10 {
      NatToStringRoundTrip(n / 10);
      assert s[..|s| - 1] == NatToString(n / 10);
    } else {
      assert s[..|s| - 1] == [];
    }
    assert DigitsValue(s) == n;
  }

  /** A leading zero does not change the value of a digit string. */
  lemma {:induction false} DigitsValueLeadingZero(s: string)
    requires forall i :: 0 <= i < |s| ==> IsDigit(s[i])
    ensures forall i :: 0 <= i < |"0" + s| ==> IsDigit(("0" + s)[i])
    ensures DigitsValue("0" + s) == DigitsValue(s)
  {
    var t := "0" + s;
    assert forall i :: 0 <= i < |t| ==> IsDigit(t[i]) by {
      forall i | 0 <= i < |t| ensures IsDigit(t[i]) {
        if i > 0 { assert t[i] == s[i - 1]; }
      }
    }
    if |s| == 0 {
      assert DigitsValue(t) == DigitsValue(t[..0]) * 10 + DigitValue('0');
    } else {
      var p := s[..|s| - 1];
      DigitsValueLeadingZero(p);
      assert t[..|t| - 1] == "0" + p;
      assert t[|t| - 1] == s[|s| - 1];
    }
  }

  /** `int()` ignores leading zeros: "05" reads as 5. With
      `NatToStringRoundTrip` this fixes the value of every numeral. */
  lemma ParseNatLeadingZero(s: string)
    requires |s| > 0 && forall i :: 0 <= i < |s| ==> IsDigit(s[i])
    ensures ParseNat("0" + s) == ParseNat(s)
  {
    DigitsValueLeadingZero(s);
  }

  /** A numeral reads as the number it prints after any run of leading zeros. */
  lemma {:induction false} ParseNatValue(z: nat, n: nat)
    ensures ParseNat(Zeros(z) + NatToString(n)) == Some(n)
  {
    var d := NatToString(n);
    NatToStringRoundTrip(n);
    if z == 0 {
      assert Zeros(0) + d == d;
    } else {
      var rest := Zeros(z - 1) + d;
      ParseNatValue(z - 1, n);
      assert ParseNat(rest) == Some(n);
      assert Zeros(z) == "0" + Zeros(z - 1);
      assert Zeros(z) + d == "0" + rest;
      ParseNatLeadingZero(rest);
    }
  }

  /** `z` zero digits. */
  function Zeros(z: nat): (s: string)
    ensures |s| == z && forall i :: 0 <= i < z ==> s[i] == '0'
  {
    if z == 0 then "" else "0" + Zeros(z - 1)
  }

  /** The value of the text after `=` on a matching line. */
  function LineValue(line: string): (r: Result<nat, ConfigError>)
    ensures r.Failure? && r.error == MissingEquals <==> '=' !in line
    ensures r.Success? <==> SecondField(line).Some? && ParseNat(Strip(SecondField(line).value)).Some?
    ensures r.Success? ==> ParseNat(Strip(SecondField(line).value)) == Some(r.value)
  {
    match SecondField(line)
    case None => Failure(MissingEquals)
    case Some(field) =>
      match ParseNat(Strip(field))
      case None => Failure(BadNumber)
      case Some(v) => Success(v)
  }

  /** The keys a configuration line can set. */
  datatype Key = TotalSpacesKey | RowsKey

  /** The key a stripped line sets, if any; `total_spaces` is checked first. */
  function LineKey(line: string): (r: Option<Key>)
    ensures r == Some(TotalSpacesKey) <==> StartsWith(line, "total_spaces")
    ensures r == Some(RowsKey) <==> !StartsWith(line, "total_spaces") && StartsWith(line, "rows")
    ensures r.None? <==> !StartsWith(line, "total_spaces") && !StartsWith(line, "rows")
  {
    if StartsWith(line, "total_spaces") then Some(TotalSpacesKey)
    else if StartsWith(line, "rows") then Some(RowsKey)
    else None
  }

  function Assign(cfg: Settings, key: Key, v: nat): Settings {
    match key
    case TotalSpacesKey => cfg.(totalSpaces := v)
    case RowsKey => cfg.(rows := v)
  }

  /** Processes one raw line: a line without a key changes nothing; a keyed
      line assigns its value to that key alone, or aborts with the value's
      error. */
  function ApplyLine(cfg: Settings, raw: string): (r: Result<Settings, ConfigError>)
    ensures LineKey(Strip(raw)).None? ==> r == Success(cfg)
    ensures LineKey(Strip(raw)).Some? ==> (r.Success? <==> LineValue(Strip(raw)).Success?)
    ensures r.Failure? ==> r.error == LineValue(Strip(raw)).error
    ensures r.Success? && LineKey(Strip(raw)) == Some(TotalSpacesKey) ==>
              r.value == cfg.(totalSpaces := LineValue(Strip(raw)).value)
    ensures r.Success? && LineKey(Strip(raw)) == Some(RowsKey) ==>
              r.value == cfg.(rows := LineValue(Strip(raw)).value)
  {
    var line := Strip(raw);
    match LineKey(line)
    case None => Success(cfg)
    case Some(key) =>
      match LineValue(line)
      case Failure(e) => Failure(e)
      case Success(v) => Success(Assign(cfg, key, v))
  }

  /** Processes `lines` in order, starting from `cfg`; the first bad line
      aborts. */
  function ParseLines(cfg: Settings, lines: seq<string>): (r: Result<Settings, ConfigError>)
    ensures (forall i :: 0 <= i < |lines| ==> LineKey(Strip(lines[i])).None?) ==> r == Success(cfg)
    decreases |lines|
  {
    if |lines| == 0 then Success(cfg)
    else match ApplyLine(cfg, lines[0])
      case Failure(e) => Failure(e)
      case Success(next) => ParseLines(next, lines[1..])
  }

  /** A successful run changes a setting only if some line carries its key. */
  lemma {:induction false} SetOnlyByKeyLine(cfg: Settings, lines: seq<string>)
    ensures var r := ParseLines(cfg, lines);
            r.Success? ==>
              && (r.value.totalSpaces != cfg.totalSpaces ==>
                    exists i :: 0 <= i < |lines| && LineKey(Strip(lines[i])) == Some(TotalSpacesKey))
              && (r.value.rows != cfg.rows ==>
                    exists i :: 0 <= i < |lines| && LineKey(Strip(lines[i])) == Some(RowsKey))
    decreases |lines|
  {
    if |lines| > 0 {
      match ApplyLine(cfg, lines[0])
      case Failure(_) =>
      case Success(next) =>
        SetOnlyByKeyLine(next, lines[1..]);
        var r := ParseLines(next, lines[1..]);
        if r.Success? && r.value.totalSpaces != cfg.totalSpaces {
          if next.totalSpaces != cfg.totalSpaces {
            assert LineKey(Strip(lines[0])) == Some(TotalSpacesKey);
          } else {
            var i :| 0 <= i < |lines[1..]| && LineKey(Strip(lines[1..][i])) == Some(TotalSpacesKey);
            assert lines[1..][i] == lines[i + 1];
          }
        }
        if r.Success? && r.value.rows != cfg.rows {
          if next.rows != cfg.rows {
            assert LineKey(Strip(lines[0])) == Some(RowsKey);
          } else {
            var i :| 0 <= i < |lines[1..]| && LineKey(Strip(lines[1..][i])) == Some(RowsKey);
            assert lines[1..][i] == lines[i + 1];
          }
        }
    }
  }

  /** The settings a whole configuration file yields. Both start at 0, so a
      file without a `rows` line leaves the row count 0, and one without a
      `total_spaces` line leaves the total 0. */
  function ParseConfig(lines: seq<string>): (r: Result<Settings, ConfigError>)
    ensures r.Success? && r.value.rows != 0 ==>
              exists i :: 0 <= i < |lines| && LineKey(Strip(lines[i])) == Some(RowsKey)
    ensures r.Success? && r.value.totalSpaces != 0 ==>
              exists i :: 0 <= i < |lines| && LineKey(Strip(lines[i])) == Some(TotalSpacesKey)
    ensures (forall i :: 0 <= i < |lines| ==> LineKey(Strip(lines[i])).None?) ==> r == Success(Settings(0, 0))
  {
    SetOnlyByKeyLine(Settings(0, 0), lines);
    ParseLines(Settings(0, 0), lines)
  }

  /** A line with extra `=` signs takes only the text between the first
      and the second one: `key=v=w` yields `v`. */
  lemma SecondFieldBetweenEquals(key: string, v: string, w: string)
    requires '=' !in key && '=' !in v
    ensures SecondField(key + "=" + v + "=" + w) == Some(v)
  {
    var line := key + "=" + v + "=" + w;
    var n := |key|;
    assert line[n] == '=';
    assert line[n + 1 + |v|] == '=';
    assert forall k :: 0 <= k < n ==> line[k] == key[k];
    assert forall k :: 0 <= k < |v| ==> line[n + 1 + k] == v[k];
    var i := IndexOf(line, '=').value;
    assert i == n;
    assert line[n + 1 .. n + 1 + |v|] == v;
  }


  /** Processing `a + b` is processing `a`, then `b` from where `a` left off. */
  lemma {:induction false} ParseAppend(cfg: Settings, a: seq<string>, b: seq<string>)
    ensures ParseLines(cfg, a + b) == (match ParseLines(cfg, a)
                                       case Failure(e) => Failure(e)
                                       case Success(mid) => ParseLines(mid, b))
    decreases |a|
  {
    if |a| > 0 {
      assert (a + b)[0] == a[0];
      assert (a + b)[1..] == a[1..] + b;
      match ApplyLine(cfg, a[0])
      case Failure(e) =>
      case Success(next) => ParseAppend(next, a[1..], b);
    } else {
      assert a + b == b;
    }
  }

  /** A keyed line whose value does not read aborts the whole loop: the
      error is that line's, whatever follows it. */
  lemma BadLineAborts(cfg: Settings, a: seq<string>, line: string, b: seq<string>)
    requires ParseLines(cfg, a).Success?
    requires LineKey(Strip(line)).Some? && LineValue(Strip(line)).Failure?
    ensures ParseLines(cfg, a + [line] + b) == Failure(LineValue(Strip(line)).error)
  {
    ParseAppend(cfg, a + [line], b);
    ParseAppend(cfg, a, [line]);
  }

  /** A well-formed `total_spaces` line overrides every earlier one and
      leaves the row count alone. */
  lemma LastTotalWins(cfg: Settings, a: seq<string>, line: string, v: nat)
    requires ParseLines(cfg, a).Success?
    requires StartsWith(Strip(line), "total_spaces") && LineValue(Strip(line)) == Success(v)
    ensures ParseLines(cfg, a + [line]) == Success(ParseLines(cfg, a).value.(totalSpaces := v))
  {
    ParseAppend(cfg, a, [line]);
  }

  /** A well-formed `rows` line overrides every earlier one and leaves the
      slot total alone. */
  lemma LastRowsWins(cfg: Settings, a: seq<string>, line: string, v: nat)
    requires ParseLines(cfg, a).Success?
    requires !StartsWith(Strip(line), "total_spaces") && StartsWith(Strip(line), "rows")
    requires LineValue(Strip(line)) == Success(v)
    ensures ParseLines(cfg, a + [line]) == Success(ParseLines(cfg, a).value.(rows := v))
  {
    ParseAppend(cfg, a, [line]);
  }

  /** A line matching neither key can be dropped wherever it stands. */
  lemma OtherLineIgnored(cfg: Settings, a: seq<string>, line: string, b: seq<string>)
    requires !StartsWith(Strip(line), "total_spaces") && !StartsWith(Strip(line), "rows")
    ensures ParseLines(cfg, a + [line] + b) == ParseLines(cfg, a + b)
  {
    ParseAppend(cfg, a + [line], b);
    ParseAppend(cfg, a, [line]);
    ParseAppend(cfg, a, b);
  }

  /** The line `key = n`. */
  function KeyLine(key: string, n: nat): string {
    key + " = " + NatToString(n)
  }

  /** The canonical two-line configuration for the given settings. */
  function RenderConfig(s: Settings): seq<string> {
    [KeyLine("total_spaces", s.totalSpaces), KeyLine("rows", s.rows)]
  }

  lemma DigitNotSpace(c: char)
    requires IsDigit(c)
    ensures !IsSpace(c) && c != '='
  {
  }

  /** In `key + " = " + digits` the first `=` is the one after the key. */
  lemma KeyLineEquals(key: string, digits: string)
    requires '=' !in key
    ensures IndexOf(key + " = " + digits, '=') == Some(|key| + 1)
  {
    var line := key + " = " + digits;
    assert line[|key| + 1] == '=';
  }

  /** A space followed by a numeral has no `=` and strips to the numeral. */
  lemma SpacedNumeral(digits: string)
    requires |digits| > 0 && forall i :: 0 <= i < |digits| ==> IsDigit(digits[i])
    ensures IndexOf(" " + digits, '=') == None
    ensures Strip(" " + digits) == digits
  {
    var rest := " " + digits;
    forall i | 0 <= i < |rest|
      ensures rest[i] != '='
    {
      if i > 0 {
        assert rest[i] == digits[i - 1];
        DigitNotSpace(digits[i - 1]);
      }
    }
    assert rest[1..] == digits;
    DigitNotSpace(digits[0]);
    DigitNotSpace(digits[|digits| - 1]);
    assert SkipSpaces(rest, 1) == 1;
    assert BackSpaces(rest, 1, |rest|) == |rest|;
  }

  /** `key + " = " + numeral` reads back as the numeral's value. */
  lemma KeyLineValue(key: string, n: nat)
    requires |key| > 0 && !IsSpace(key[0]) && '=' !in key
    ensures Strip(key + " = " + NatToString(n)) == key + " = " + NatToString(n)
    ensures LineValue(key + " = " + NatToString(n)) == Success(n)
  {
    var digits := NatToString(n);
    KeyLineStripped(key, digits);
    KeyLineField(key, digits);
    SpacedNumeral(digits);
    NatToStringRoundTrip(n);
  }

  /** A `key = numeral` line has no whitespace to strip. */
  lemma KeyLineStripped(key: string, digits: string)
    requires |key| > 0 && !IsSpace(key[0])
    requires |digits| > 0 && forall i :: 0 <= i < |digits| ==> IsDigit(digits[i])
    ensures Strip(key + " = " + digits) == key + " = " + digits
  {
    var line := key + " = " + digits;
    assert line[0] == key[0];
    assert line[|line| - 1] == digits[|digits| - 1];
    DigitNotSpace(digits[|digits| - 1]);
    StripNoop(line);
  }

  /** The second field of a `key = numeral` line is the spaced numeral. */
  lemma KeyLineField(key: string, digits: string)
    requires '=' !in key
    requires |digits| > 0 && forall i :: 0 <= i < |digits| ==> IsDigit(digits[i])
    ensures SecondField(key + " = " + digits) == Some(" " + digits)
  {
    var line := key + " = " + digits;
    KeyLineEquals(key, digits);
    assert line[|key| + 2..] == " " + digits;
    SpacedNumeral(digits);
  }

  /** A `key = numeral` line whose key is recognised assigns the numeral. */
  lemma KeyLineApply(cfg: Settings, key: string, k: Key, n: nat)
    requires |key| > 0 && !IsSpace(key[0]) && '=' !in key
    requires LineKey(KeyLine(key, n)) == Some(k)
    ensures ApplyLine(cfg, KeyLine(key, n)) == Success(Assign(cfg, k, n))
  {
    KeyLineValue(key, n);
  }

  /** Rendering settings and parsing the result gives the settings back. */
  lemma RenderParseRoundTrip(s: Settings)
    ensures ParseConfig(RenderConfig(s)) == Success(s)
  {
    var lines := RenderConfig(s);
    var l0, l1 := lines[0], lines[1];
    assert l0[..12] == "total_spaces";
    assert l1[..4] == "rows";
    assert !StartsWith(l1, "total_spaces") by {
      if |l1| >= 12 {
        assert l1[..12][0] == 'r';
      }
    }
    KeyLineApply(Settings(0, 0), "total_spaces", TotalSpacesKey, s.totalSpaces);
    var mid := Settings(s.totalSpaces, 0);
    assert LineKey(l1) == Some(RowsKey);
    KeyLineApply(mid, "rows", RowsKey, s.rows);
    assert lines == [l0, l1];
    ParseTwoLines(Settings(0, 0), l0, l1, mid, s);
  }

  /** Two lines that each apply cleanly parse to the second one's result. */
  lemma ParseTwoLines(cfg: Settings, a: string, b: string, mid: Settings, fin: Settings)
    requires ApplyLine(cfg, a) == Success(mid) && ApplyLine(mid, b) == Success(fin)
    ensures ParseLines(cfg, [a, b]) == Success(fin)
  {
    assert [a, b][1..] == [b];
    assert [b][1..] == [];
  }
}

=== FILE: fares.dfy ===
/** Fares: the number of hours charged for a stay and the fare owed on exit.
    Elapsed time is a whole number of seconds; it may be negative when the
    clock moved backwards between entry and exit. */
module Fares {
  import opened Vehicles

  const SecondsPerHour: int := 3600

  /** Hours charged for a stay of `elapsed` seconds: every started hour is
      charged, a stay of exactly one hour already counts as two, and at least
      one hour is always charged. Dafny's `/` by a positive divisor rounds
      down, as the source's `//` does. */
  function Hours(elapsed: int): (h: int)
    ensures h >= 1
    ensures elapsed < h * SecondsPerHour
    ensures elapsed >= 0 ==> (h - 1) * SecondsPerHour <= elapsed
    ensures elapsed < 0 ==> h == 1
  {
    var started := elapsed / SecondsPerHour + 1;
    if started < 1 then 1 else started
  }

  /** The hours charged are the least positive count of whole hours that
      strictly exceeds the stay. */
  lemma HoursIsLeast(elapsed: int, h: int)
    requires h >= 1 && elapsed < h * SecondsPerHour
    ensures Hours(elapsed) <= h
  {
  }

  /** A longer stay is never charged fewer hours. */
  lemma HoursMonotone(e1: int, e2: int)
    requires e1 <= e2
    ensures Hours(e1) <= Hours(e2)
  {
    if e2 >= 0 {
      HoursIsLeast(e1, Hours(e2));
    }
  }

  /** The fare in cents owed by a vehicle of kind `k` after `elapsed` seconds. */
  function FareCents(k: Kind, elapsed: int): (cents: int)
    ensures cents >= RateCents(k)
    ensures cents % RateCents(k) == 0
    ensures cents / RateCents(k) == Hours(elapsed)
  {
    Hours(elapsed) * RateCents(k)
  }

  /** A longer stay never costs less. */
  lemma FareMonotone(k: Kind, e1: int, e2: int)
    requires e1 <= e2
    ensures FareCents(k, e1) <= FareCents(k, e2)
  {
    HoursMonotone(e1, e2);
  }

  /** Worked values: one second and zero seconds are one hour, exactly one
      hour (3600 s) and ninety minutes (5400 s) are two hours; a car parked
      for ninety minutes owes $7.00 and a truck parked for one second $4.50. */
  lemma FareExamples()
    ensures Hours(0) == 1 && Hours(1) == 1 && Hours(3599) == 1
    ensures Hours(3600) == 2 && Hours(5400) == 2 && Hours(7200) == 3
    ensures Hours(-10) == 1
    ensures FareCents(Car, 5400) == 700
    ensures FareCents(Truck, 1) == 450
    ensures FareCents(Motorcycle, 3600) == 400
  {
  }
}

=== FILE: lot.dfy ===
/** The parking lot: an ordered sequence of spaces laid out as `rows` rows of
    `spaceCount` slots, with a running count of available spaces. Every
    operation is a pure transition from one lot to the next; the caller
    supplies the clock reading and the already-bounded row and column. */
module ParkingLot {
  import opened Wrappers
  import opened Vehicles
  import opened Spaces
  import opened Fares

  datatype Lot = Lot(
    spaces: seq<Space>,
    availSpaces: int,
    totalSpaces: nat,
    rows: nat,
    spaceCount: nat)
  {
    /** The invariant every reachable lot keeps: the layout agrees with the
        configuration, every slot is well formed, and the running counter
        equals the number of available slots. */
    predicate Valid()
      ensures Valid() ==> 0 <= availSpaces <= |spaces|
    {
      && rows > 0
      && |spaces| == totalSpaces
      && spaceCount == totalSpaces / rows
      && (forall i :: 0 <= i < |spaces| ==> spaces[i].WellFormed())
      && availSpaces == CountAvailable(spaces)
    }
  }

  /** Why initialisation fails: the row width divides by the row count. */
  datatype InitError = ZeroRows

  /** Why a park, exit or view is refused. */
  datatype LotError =
    | SpaceUnavailable  // park: lot full or slot already occupied
    | NoVehicle         // exit or view: the slot is empty

  /** What an exit hands back: the vehicle, the hours charged and the fare. */
  datatype Receipt = Receipt(vehicle: Vehicle, hours: int, costCents: int)

  /** The number of available slots in `s`. */
  function CountAvailable(s: seq<Space>): (n: nat)
    ensures n <= |s|
  {
    if |s| == 0 then 0 else Avail(s[0]) + CountAvailable(s[1..])
  }

  /** 1 for an available slot, 0 for an occupied one. */
  function Avail(s: Space): nat {
    if s.IsAvailable() then 1 else 0
  }

  /** Replacing one slot changes the count by exactly the change in that
      slot's availability. */
  lemma {:induction false} CountUpdate(s: seq<Space>, i: nat, x: Space)
    requires i < |s|
    ensures CountAvailable(s[i := x]) == CountAvailable(s) - Avail(s[i]) + Avail(x)
  {
    if i > 0 {
      CountUpdate(s[1..], i - 1, x);
      assert s[i := x][1..] == s[1..][i - 1 := x];
    }
  }

  /** A sequence holding an available slot has a positive count. */
  lemma {:induction false} CountPositive(s: seq<Space>, i: nat)
    requires i < |s| && s[i].IsAvailable()
    ensures CountAvailable(s) >= 1
  {
    if i > 0 {
      CountPositive(s[1..], i - 1);
    }
  }

  /** A count equal to the length means every slot is available. */
  lemma {:induction false} CountFull(s: seq<Space>, i: nat)
    requires CountAvailable(s) == |s| && i < |s|
    ensures s[i].IsAvailable()
  {
    if i > 0 {
      CountFull(s[1..], i - 1);
    }
  }

  /** `n` fresh slots are all available. */
  lemma {:induction false} CountEmpty(n: nat)
    ensures CountAvailable(seq(n, _ => EmptySpace())) == n
  {
    if n > 0 {
      assert seq(n, _ => EmptySpace())[1..] == seq(n - 1, _ => EmptySpace());
      CountEmpty(n - 1);
    }
  }

  /** Allocates `totalSpaces` empty slots in rows of `totalSpaces / rows`.
      Zero rows is the source's division by zero. A remainder is dropped:
      the slots past `rows * spaceCount` exist but no (row, col) reaches them. */
  function Initialize(totalSpaces: nat, rows: nat): (r: Result<Lot, InitError>)
    ensures r.Success? <==> rows > 0
    ensures r.Success? ==> r.value.Valid()
    ensures r.Success? ==> && |r.value.spaces| == totalSpaces
                           && r.value.availSpaces == totalSpaces
                           && r.value.totalSpaces == totalSpaces
                           && r.value.rows == rows
                           && r.value.spaceCount * rows <= totalSpaces < (r.value.spaceCount + 1) * rows
    ensures r.Success? ==> forall i :: 0 <= i < |r.value.spaces| ==>
                             r.value.spaces[i].IsAvailable() && r.value.spaces[i].VehicleInfo() == None
  {
    if rows == 0 then Failure(ZeroRows)
    else
      EmptyLotValid(totalSpaces, rows);
      FloorWidth(totalSpaces, rows);
      Success(EmptyLot(totalSpaces, rows))
  }

  /** `totalSpaces` fresh slots in rows of `totalSpaces / rows`. */
  function EmptyLot(totalSpaces: nat, rows: nat): Lot
    requires rows > 0
  {
    Lot(seq(totalSpaces, _ => EmptySpace()), totalSpaces, totalSpaces, rows, totalSpaces / rows)
  }

  /** A lot of fresh slots satisfies the invariant, and every slot is empty. */
  lemma EmptyLotValid(totalSpaces: nat, rows: nat)
    requires rows > 0
    ensures EmptyLot(totalSpaces, rows).Valid()
    ensures forall i :: 0 <= i < totalSpaces ==> EmptyLot(totalSpaces, rows).spaces[i] == EmptySpace()
  {
    CountEmpty(totalSpaces);
  }

  /** `total / rows` is the widest row width that fits `rows` times. */
  lemma FloorWidth(total: nat, rows: nat)
    requires rows > 0
    ensures (total / rows) * rows <= total < (total / rows + 1) * rows
  {
    var q, m := total / rows, total % rows;
    assert total == q * rows + m;
    assert (q + 1) * rows == q * rows + rows;
  }

  /** The slot addressed by row `row` and column `col`. */
  function SpaceIndex(lot: Lot, row: nat, col: nat): (i: nat)
    requires row < lot.rows && col < lot.spaceCount
    ensures row * lot.spaceCount <= i < (row + 1) * lot.spaceCount
    ensures i < lot.rows * lot.spaceCount
    ensures lot.Valid() ==> i < |lot.spaces|
  {
    RowBound(row, lot.rows, col, lot.spaceCount);
    LayoutFits(lot);
    row * lot.spaceCount + col
  }

  /** The rows of a valid lot fit within its slots. */
  lemma LayoutFits(lot: Lot)
    ensures lot.Valid() ==> lot.rows * lot.spaceCount <= |lot.spaces|
  {
  }

  lemma RowBound(row: nat, rows: nat, col: nat, width: nat)
    requires row < rows && col < width
    ensures row * width + col < (row + 1) * width <= rows * width
  {
    assert (row + 1) * width == row * width + width;
    MulMonotone(row + 1, rows - row - 1, width);
  }

  lemma {:induction false} MulMonotone(a: nat, d: nat, w: nat)
    ensures a * w <= (a + d) * w
  {
    if d > 0 {
      MulMonotone(a, d - 1, w);
      assert (a + d) * w == (a + d - 1) * w + w;
    }
  }

  /** Distinct (row, col) pairs address distinct slots. */
  lemma IndexInjective(lot: Lot, r1: nat, c1: nat, r2: nat, c2: nat)
    requires r1 < lot.rows && c1 < lot.spaceCount
    requires r2 < lot.rows && c2 < lot.spaceCount
    requires (r1, c1) != (r2, c2)
    ensures SpaceIndex(lot, r1, c1) != SpaceIndex(lot, r2, c2)
  {
    var i1, i2 := SpaceIndex(lot, r1, c1), SpaceIndex(lot, r2, c2);
    if r1 < r2 {
      MulMonotone(r1 + 1, r2 - r1 - 1, lot.spaceCount);
    } else if r2 < r1 {
      MulMonotone(r2 + 1, r1 - r2 - 1, lot.spaceCount);
    }
  }

  /** Slot `i` can be reached from some in-range (row, col). */
  ghost predicate Addressable(lot: Lot, i: nat) {
    exists row: nat, col: nat :: row < lot.rows && col < lot.spaceCount && SpaceIndex(lot, row, col) == i
  }

  /** Exactly the first `rows * spaceCount` slots are addressable. */
  lemma AddressableIff(lot: Lot, i: nat)
    ensures Addressable(lot, i) <==> i < lot.rows * lot.spaceCount
  {
    if i < lot.rows * lot.spaceCount {
      var w := lot.spaceCount;
      assert w > 0;
      var row, col := i / w, i % w;
      assert i == row * w + col;
      if row >= lot.rows {
        MulMonotone(lot.rows, row - lot.rows, w);
      }
      assert SpaceIndex(lot, row, col) == i;
    }
  }

  /** Ten spaces in three rows give rows of three, and the tenth slot
      (index 9) is never addressed. */
  lemma TenSpacesThreeRows()
    ensures Initialize(10, 3).Success?
    ensures Initialize(10, 3).value.spaceCount == 3
    ensures |Initialize(10, 3).value.spaces| == 10
    ensures !Addressable(Initialize(10, 3).value, 9)
  {
    AddressableIff(Initialize(10, 3).value, 9);
  }

  /** `b` agrees with `a` everywhere except possibly at slot `i`. */
  predicate SameExcept(a: seq<Space>, b: seq<Space>, i: nat) {
    |a| == |b| && forall j :: 0 <= j < |a| && j != i ==> a[j] == b[j]
  }

  /** Parks a new vehicle, stamped with `now`, at (row, col). The source
      checks the counter and the slot separately; both are kept. */
  function Park(lot: Lot, row: nat, col: nat, kind: Kind, plate: string, now: int): (r: Result<Lot, LotError>)
    requires lot.Valid() && row < lot.rows && col < lot.spaceCount
    ensures r.Success? <==> lot.availSpaces > 0 && lot.spaces[SpaceIndex(lot, row, col)].IsAvailable()
    ensures r.Failure? ==> r.error == SpaceUnavailable
    ensures r.Success? ==> r.value.Valid()
    ensures r.Success? ==> && SameExcept(lot.spaces, r.value.spaces, SpaceIndex(lot, row, col))
                           && r.value.spaces[SpaceIndex(lot, row, col)].VehicleInfo() == Some(Vehicle(kind, plate, now))
                           && !r.value.spaces[SpaceIndex(lot, row, col)].IsAvailable()
                           && r.value.availSpaces == lot.availSpaces - 1
                           && r.value.(spaces := lot.spaces, availSpaces := lot.availSpaces) == lot
  {
    var vehicle := Vehicle(kind, plate, now);
    var idx := SpaceIndex(lot, row, col);
    if lot.availSpaces > 0 && lot.spaces[idx].IsAvailable() then
      CountUpdate(lot.spaces, idx, AddVehicle(lot.spaces[idx], vehicle));
      Success(lot.(spaces := lot.spaces[idx := AddVehicle(lot.spaces[idx], vehicle)],
                   availSpaces := lot.availSpaces - 1))
    else
      Failure(SpaceUnavailable)
  }

  /** In a valid lot the counter guard never decides on its own: parking
      succeeds exactly when the chosen slot is free. */
  lemma ParkGuardAgrees(lot: Lot, row: nat, col: nat, kind: Kind, plate: string, now: int)
    requires lot.Valid() && row < lot.rows && col < lot.spaceCount
    ensures Park(lot, row, col, kind, plate, now).Success? <==> lot.spaces[SpaceIndex(lot, row, col)].IsAvailable()
  {
    var idx := SpaceIndex(lot, row, col);
    if lot.spaces[idx].IsAvailable() {
      CountPositive(lot.spaces, idx);
    }
  }

  /** Removes the vehicle at (row, col) and charges it for the time from
      its entry to `now`. */
  function Exit(lot: Lot, row: nat, col: nat, now: int): (r: Result<(Lot, Receipt), LotError>)
    requires lot.Valid() && row < lot.rows && col < lot.spaceCount
    ensures r.Success? <==> !lot.spaces[SpaceIndex(lot, row, col)].IsAvailable()
    ensures r.Failure? ==> r.error == NoVehicle
    ensures r.Success? ==>
              var (after, receipt) := r.value;
              && after.Valid()
              && SameExcept(lot.spaces, after.spaces, SpaceIndex(lot, row, col))
              && after.spaces[SpaceIndex(lot, row, col)] == EmptySpace()
              && after.availSpaces == lot.availSpaces + 1
              && after.(spaces := lot.spaces, availSpaces := lot.availSpaces) == lot
              && lot.spaces[SpaceIndex(lot, row, col)].VehicleInfo() == Some(receipt.vehicle)
              && receipt.hours == Hours(now - receipt.vehicle.entryTime)
              && receipt.costCents == receipt.hours * RateCents(receipt.vehicle.kind)
  {
    var idx := SpaceIndex(lot, row, col);
    if !lot.spaces[idx].IsAvailable() then
      var (emptied, vExit) := RemoveVehicle(lot.spaces[idx]);
      var vehicle := vExit.value;
      var elapsed := now - vehicle.entryTime;
      CountUpdate(lot.spaces, idx, emptied);
      Success((lot.(spaces := lot.spaces[idx := emptied], availSpaces := lot.availSpaces + 1),
               Receipt(vehicle, Hours(elapsed), FareCents(vehicle.kind, elapsed))))
    else
      Failure(NoVehicle)
  }

  /** Read-only look-up of the vehicle at (row, col). */
  function View(lot: Lot, row: nat, col: nat): (r: Result<Vehicle, LotError>)
    requires lot.Valid() && row < lot.rows && col < lot.spaceCount
    ensures r.Success? <==> !lot.spaces[SpaceIndex(lot, row, col)].IsAvailable()
    ensures r.Success? ==> lot.spaces[SpaceIndex(lot, row, col)].VehicleInfo() == Some(r.value)
    ensures r.Failure? ==> r.error == NoVehicle
  {
    var idx := SpaceIndex(lot, row, col);
    if !lot.spaces[idx].IsAvailable() then Success(lot.spaces[idx].VehicleInfo().value)
    else Failure(NoVehicle)
  }

  /** Parking and then viewing the same slot shows the vehicle just parked. */
  lemma ParkThenView(lot: Lot, row: nat, col: nat, kind: Kind, plate: string, now: int)
    requires lot.Valid() && row < lot.rows && col < lot.spaceCount
    requires Park(lot, row, col, kind, plate, now).Success?
    ensures View(Park(lot, row, col, kind, plate, now).value, row, col) == Success(Vehicle(kind, plate, now))
  {
  }

  /** Parking at one slot leaves what is seen at every other slot unchanged. */
  lemma ParkLeavesOthers(lot: Lot, row: nat, col: nat, kind: Kind, plate: string, now: int, r2: nat, c2: nat)
    requires lot.Valid() && row < lot.rows && col < lot.spaceCount
    requires r2 < lot.rows && c2 < lot.spaceCount && (r2, c2) != (row, col)
    requires Park(lot, row, col, kind, plate, now).Success?
    ensures View(Park(lot, row, col, kind, plate, now).value, r2, c2) == View(lot, r2, c2)
  {
    IndexInjective(lot, row, col, r2, c2);
  }

  /** Parking and then exiting the same slot restores the lot and returns
      the vehicle, charged for the time in between. */
  lemma ParkThenExit(lot: Lot, row: nat, col: nat, kind: Kind, plate: string, now: int, later: int)
    requires lot.Valid() && row < lot.rows && col < lot.spaceCount
    requires Park(lot, row, col, kind, plate, now).Success?
    ensures Exit(Park(lot, row, col, kind, plate, now).value, row, col, later)
            == Success((lot, Receipt(Vehicle(kind, plate, now), Hours(later - now), FareCents(kind, later - now))))
  {
    var idx := SpaceIndex(lot, row, col);
    var parked := Park(lot, row, col, kind, plate, now).value;
    var after := Exit(parked, row, col, later).value.0;
    assert lot.spaces[idx] == EmptySpace();
    assert after.spaces == lot.spaces;
  }

  /** Exiting and then parking the same vehicle again restores the lot. */
  lemma ExitThenPark(lot: Lot, row: nat, col: nat, now: int)
    requires lot.Valid() && row < lot.rows && col < lot.spaceCount
    requires Exit(lot, row, col, now).Success?
    ensures var (after, receipt) := Exit(lot, row, col, now).value;
            var v := receipt.vehicle;
            Park(after, row, col, v.kind, v.plate, v.entryTime) == Success(lot)
  {
    var idx := SpaceIndex(lot, row, col);
    var (after, receipt) := Exit(lot, row, col, now).value;
    assert after.spaces[idx := Space(Some(receipt.vehicle), true)] == lot.spaces;
  }

  /** In a valid lot the counter lies between zero and the lot size, and a
      counter equal to the lot size means no slot is occupied. */
  lemma CounterBounds(lot: Lot)
    requires lot.Valid()
    ensures 0 <= lot.availSpaces <= lot.totalSpaces
    ensures lot.availSpaces == lot.totalSpaces ==> forall i :: 0 <= i < |lot.spaces| ==> lot.spaces[i].IsAvailable()
  {
    forall i | 0 <= i < |lot.spaces|
      ensures lot.availSpaces == lot.totalSpaces ==> lot.spaces[i].IsAvailable()
    {
      if lot.availSpaces == lot.totalSpaces {
        CountFull(lot.spaces, i);
      }
    }
  }
}

=== FILE: render.dfy ===
/** Text rendering of one row of the lot: `|`, then one three-character cell
    per slot separated by single spaces, then `|`. An empty slot is `[ ]`,
    an occupied one `[c]`, `[t]` or `[m]` after the vehicle's type code. */
module RowRender {
  import opened Wrappers
  import opened Vehicles
  import opened Spaces
  import opened ParkingLot

  /** The letter shown for a category, chosen by its type code. */
  function KindChar(k: Kind): (c: char)
    ensures c in {'c', 't', 'm'}
  {
    if TypeCode(k) == 1 then 'c' else if TypeCode(k) == 2 then 't' else 'm'
  }

  /** The category a cell letter stands for; a blank stands for no vehicle. */
  function CharKind(c: char): Option<Kind> {
    if c == 'c' then Some(Car)
    else if c == 't' then Some(Truck)
    else if c == 'm' then Some(Motorcycle)
    else None
  }

  /** The three characters that render one slot. */
  function CellText(sp: Space): (t: string)
    requires sp.WellFormed()
    ensures |t| == 3 && t[0] == '[' && t[2] == ']'
  {
    if sp.IsAvailable() then "[ ]"
    else "[" + [KindChar(sp.VehicleInfo().value.kind)] + "]"
  }

  /** A rendered cell can be read back: its middle character is a blank
      exactly for an empty slot and otherwise names the vehicle's category. */
  lemma CellRoundTrip(sp: Space)
    requires sp.WellFormed()
    ensures CellText(sp)[1] == ' ' <==> sp.IsAvailable()
    ensures !sp.IsAvailable() ==> CharKind(CellText(sp)[1]) == Some(sp.VehicleInfo().value.kind)
    ensures sp.IsAvailable() ==> CharKind(CellText(sp)[1]) == None
  {
  }

  /** The `k`-th cell of a rendered row (0-based). */
  function CellAt(out: string, k: nat): string
    requires 4 * k + 4 <= |out|
  {
    out[4 * k + 1 .. 4 * k + 4]
  }

  /** The character after the `k`-th cell of a rendered row. */
  function SepAt(out: string, k: nat): char
    requires 4 * k + 4 < |out|
  {
    out[4 * k + 4]
  }

  /** Slot `k` (0-based) of row `row`. */
  function RowSlot(lot: Lot, row: nat, k: nat): (sp: Space)
    requires lot.Valid() && (row + 1) * lot.spaceCount <= |lot.spaces| && k < lot.spaceCount
    ensures sp.WellFormed()
  {
    assert lot.spaceCount * row + k < lot.spaceCount * row + lot.spaceCount == (row + 1) * lot.spaceCount;
    lot.spaces[lot.spaceCount * row + k]
  }

  /** The cells of slots `first` up to (not including) `last`. */
  function RangeCells(spaces: seq<Space>, first: nat, last: nat): (cells: seq<string>)
    requires first <= last <= |spaces|
    requires forall i :: first <= i < last ==> spaces[i].WellFormed()
    ensures |cells| == last - first
    ensures forall k :: 0 <= k < |cells| ==> cells[k] == CellText(spaces[first + k])
    ensures forall k :: 0 <= k < |cells| ==> |cells[k]| == 3
  {
    var cells := seq(last - first, k requires 0 <= k < last - first => CellText(spaces[first + k]));
    assert forall k :: 0 <= k < |cells| ==> cells[k] == CellText(spaces[first + k]);
    cells
  }

  /** `out` is the rendering of the first `k` of `cells`, with the opening
      bar and the separators written so far, but not the closing bar. */
  predicate RowPrefix(out: string, cells: seq<string>, k: nat)
    requires k <= |cells|
  {
    && |out| == 1 + 4 * k - (if k == |cells| && k > 0 then 1 else 0)
    && out[0] == '|'
    && (forall j :: 0 <= j < k ==> CellAt(out, j) == cells[j])
    && (forall j :: 0 <= j < k && j < |cells| - 1 ==> SepAt(out, j) == ' ')
  }

  /** Writing the next cell, and a separator unless it is the last one,
      extends a rendered prefix by one cell. */
  lemma RowPrefixStep(out: string, cells: seq<string>, k: nat)
    requires k < |cells| && |cells[k]| == 3
    requires RowPrefix(out, cells, k)
    ensures RowPrefix(out + cells[k] + (if k < |cells| - 1 then " " else ""), cells, k + 1)
  {
    var ext := cells[k] + (if k < |cells| - 1 then " " else "");
    var out' := out + cells[k] + (if k < |cells| - 1 then " " else "");
    assert out' == out + ext;
    forall j | 0 <= j < k
      ensures CellAt(out', j) == cells[j]
    {
      assert out'[4 * j + 1 .. 4 * j + 4] == out[4 * j + 1 .. 4 * j + 4];
    }
    forall j | 0 <= j < k + 1 && j < |cells| - 1
      ensures SepAt(out', j) == ' '
    {
      if j < k {
        assert SepAt(out, j) == ' ';
        assert out'[4 * j + 4] == out[4 * j + 4];
      } else {
        assert out'[4 * k + 4] == (" ")[0];
      }
    }
    assert out'[4 * k + 1 .. 4 * k + 4] == cells[k];
  }

  /** Closing a complete prefix gives the whole row. */
  lemma RowPrefixClose(out: string, cells: seq<string>)
    requires RowPrefix(out, cells, |cells|)
    ensures |cells| == 0 ==> out + "|" == "||"
    ensures |cells| >= 1 ==> |out + "|"| == 2 + 4 * |cells| - 1
    ensures (out + "|")[0] == '|' && (out + "|")[|out + "|"| - 1] == '|'
    ensures forall k :: 0 <= k < |cells| ==> CellAt(out + "|", k) == cells[k]
    ensures forall k :: 0 <= k < |cells| - 1 ==> SepAt(out + "|", k) == ' '
  {
    var out' := out + "|";
    forall k | 0 <= k < |cells|
      ensures CellAt(out', k) == cells[k]
    {
      assert out'[4 * k + 1 .. 4 * k + 4] == out[4 * k + 1 .. 4 * k + 4];
    }
    forall k | 0 <= k < |cells| - 1
      ensures SepAt(out', k) == ' '
    {
      assert SepAt(out, k) == ' ';
      assert out'[4 * k + 4] == out[4 * k + 4];
    }
  }

  /** Why the row printer as written cannot produce a string. */
  datatype RenderError = MissingGetType

  /** Renders slots `first` up to `last` between bars, one cell per slot,
      cells separated by single spaces. */
  method RenderRange(spaces: seq<Space>, first: nat, last: nat) returns (output: string)
    requires first <= last <= |spaces|
    requires forall i :: first <= i < last ==> spaces[i].WellFormed()
    ensures last == first ==> output == "||"
    ensures last > first ==> |output| == 2 + 4 * (last - first) - 1
    ensures output[0] == '|' && output[|output| - 1] == '|'
    ensures forall k :: 0 <= k < last - first ==> CellAt(output, k) == CellText(spaces[first + k])
    ensures forall k :: 0 <= k < last - first - 1 ==> SepAt(output, k) == ' '
  {
    ghost var cells := RangeCells(spaces, first, last);
    output := "|";
    var s := first;
    while s < last
      invariant first <= s <= last
      invariant RowPrefix(output, cells, s - first)
    {
      RowPrefixStep(output, cells, s - first);
      ghost var prev := output;
      output := output + CellText(spaces[s]);
      if s < last - 1 {
        output := output + " ";
      }
      assert output == prev + cells[s - first] + (if s - first < |cells| - 1 then " " else "");
      s := s + 1;
    }
    RowPrefixClose(output, cells);
    output := output + "|";
  }

  /** Renders row `row`. The result is fully determined: its length, its
      outer bars, every cell and every separator. */
  method PrintRow(lot: Lot, row: nat) returns (output: string)
    requires lot.Valid() && (row + 1) * lot.spaceCount <= |lot.spaces|
    ensures lot.spaceCount == 0 ==> output == "||"
    ensures lot.spaceCount >= 1 ==> |output| == 2 + 4 * lot.spaceCount - 1
    ensures output[0] == '|' && output[|output| - 1] == '|'
    ensures forall k :: 0 <= k < lot.spaceCount ==> CellAt(output, k) == CellText(RowSlot(lot, row, k))
    ensures forall k :: 0 <= k < lot.spaceCount - 1 ==> SepAt(output, k) == ' '
  {
    var n := lot.spaceCount;
    var first, last := n * row, n * (row + 1);
    assert last == first + n;
    output := RenderRange(lot.spaces, first, last);
    forall k | 0 <= k < n
      ensures CellAt(output, k) == CellText(RowSlot(lot, row, k))
    {
      assert RowSlot(lot, row, k) == lot.spaces[first + k];
    }
  }

  /** The row printer as written asks each occupied slot's vehicle for a
      `get_type()` the vehicle does not have, so any occupied slot in the row
      aborts the rendering; only an all-empty row prints. */
  method PrintRowAsWritten(lot: Lot, row: nat) returns (r: Result<string, RenderError>)
    requires lot.Valid() && (row + 1) * lot.spaceCount <= |lot.spaces|
    ensures r.Failure? <==> exists k :: 0 <= k < lot.spaceCount && !RowSlot(lot, row, k).IsAvailable()
    ensures r.Success? ==> |r.value| >= 2 && r.value[0] == '|' && r.value[|r.value| - 1] == '|'
    ensures r.Success? ==> forall k :: 0 <= k < lot.spaceCount ==> 4 * k + 4 <= |r.value| && CellAt(r.value, k) == "[ ]"
  {
    var n := lot.spaceCount;
    var first, last := n * row, n * (row + 1);
    assert last == first + n;
    var s := first;
    while s < last
      invariant first <= s <= last
      invariant forall k :: 0 <= k < s - first ==> RowSlot(lot, row, k).IsAvailable()
    {
      assert lot.spaces[s] == RowSlot(lot, row, s - first);
      if !lot.spaces[s].IsAvailable() {
        return Failure(MissingGetType);
      }
      s := s + 1;
    }
    var output := PrintRow(lot, row);
    return Success(output);
  }

  /** A concrete lot on which the printer as written fails: one slot in
      one row, holding a car. Its row holds an occupied slot, so
      `PrintRowAsWritten` refuses it, while the corrected `PrintRow` shows
      the cell `[c]`. */
  lemma OccupiedRowCounterexample()
    ensures Initialize(1, 1).Success?
    ensures var lot := Initialize(1, 1).value;
            && Park(lot, 0, 0, Car, "ABC123", 0).Success?
            && var parked := Park(lot, 0, 0, Car, "ABC123", 0).value;
               && (1 + 0) * parked.spaceCount <= |parked.spaces|
               && !RowSlot(parked, 0, 0).IsAvailable()
               && CellText(RowSlot(parked, 0, 0)) == "[c]"
  {
    var lot := Initialize(1, 1).value;
    assert lot.spaces[SpaceIndex(lot, 0, 0)].IsAvailable();
  }
}

=== FILE: session.dfy ===
/** A session: the lot is built once from the configuration lines and then
    driven by a sequence of user actions. Each action carries the row and
    column the input widgets allow (always within the layout) and, where the
    source reads the clock, the current time. A refused action leaves the
    lot as it was. */
module Session {
  import opened Wrappers
  import opened Vehicles
  import opened ParkingLot
  import Config

  datatype Action =
    | ParkAt(row: nat, col: nat, kind: Kind, plate: string, now: int)
    | ExitAt(row: nat, col: nat, now: int)
    | ViewAt(row: nat, col: nat)

  /** What the user is shown after an action. */
  datatype Outcome =
    | Parked
    | Exited(receipt: Receipt)
    | Viewed(vehicle: Vehicle)
    | Refused(error: LotError)

  /** Why a session cannot start. */
  datatype StartError = BadConfig(configError: Config.ConfigError) | BadLayout(initError: InitError)

  predicate InBounds(lot: Lot, a: Action) {
    a.row < lot.rows && a.col < lot.spaceCount
  }

  /** Same layout: the configuration-derived fields agree. */
  predicate SameLayout(a: Lot, b: Lot) {
    a.totalSpaces == b.totalSpaces && a.rows == b.rows && a.spaceCount == b.spaceCount
  }

  /** Performs one action. */
  function Step(lot: Lot, a: Action): (r: (Lot, Outcome))
    requires lot.Valid() && InBounds(lot, a)
    ensures r.0.Valid() && SameLayout(lot, r.0)
    ensures r.1.Refused? || a.ViewAt? ==> r.0 == lot
    ensures a.ParkAt? ==> (r.1 == Parked || r.1 == Refused(SpaceUnavailable))
    ensures a.ExitAt? ==> (r.1.Exited? || r.1 == Refused(NoVehicle))
    ensures a.ViewAt? ==> (r.1.Viewed? || r.1 == Refused(NoVehicle))
    ensures a.ParkAt? ==>
              && (r.1 == Parked <==> Park(lot, a.row, a.col, a.kind, a.plate, a.now).Success?)
              && (r.1 == Parked ==> r.0 == Park(lot, a.row, a.col, a.kind, a.plate, a.now).value)
    ensures a.ExitAt? ==>
              && (r.1.Exited? <==> Exit(lot, a.row, a.col, a.now).Success?)
              && (r.1.Exited? ==> (r.0, r.1.receipt) == Exit(lot, a.row, a.col, a.now).value)
    ensures a.ViewAt? ==>
              && (r.1.Viewed? <==> View(lot, a.row, a.col).Success?)
              && (r.1.Viewed? ==> r.1.vehicle == View(lot, a.row, a.col).value)
    ensures !r.1.Refused? ==> r.0.availSpaces == lot.availSpaces + (if a.ParkAt? then -1 else if a.ExitAt? then 1 else 0)
  {
    match a
    case ParkAt(row, col, kind, plate, now) =>
      (match Park(lot, row, col, kind, plate, now)
       case Success(next) => (next, Parked)
       case Failure(e) => (lot, Refused(e)))
    case ExitAt(row, col, now) =>
      (match Exit(lot, row, col, now)
       case Success(res) => (res.0, Exited(res.1))
       case Failure(e) => (lot, Refused(e)))
    case ViewAt(row, col) =>
      (match View(lot, row, col)
       case Success(v) => (lot, Viewed(v))
       case Failure(e) => (lot, Refused(e)))
  }

  /** Performs `actions` in order and returns the final lot. The invariant
      (`Lot.Valid`: the counter equals the number of free slots) holds at
      the end. */
  function Run(lot: Lot, actions: seq<Action>): (r: Lot)
    requires lot.Valid()
    requires forall i :: 0 <= i < |actions| ==> InBounds(lot, actions[i])
    ensures r.Valid() && SameLayout(lot, r)
    decreases |actions|
  {
    if |actions| == 0 then lot
    else
      var next := Step(lot, actions[0]).0;
      assert forall i :: 0 <= i < |actions[1..]| ==> InBounds(lot, actions[1..][i]);
      Run(next, actions[1..])
  }

  /** Reads the configuration and builds the initial lot. Without a `rows`
      line the row count stays 0 and the layout cannot be computed. */
  function Open(lines: seq<string>): (r: Result<Lot, StartError>)
    ensures r.Success? ==> r.value.Valid() && r.value.availSpaces == r.value.totalSpaces
    ensures r.Success? <==> Config.ParseConfig(lines).Success? && Config.ParseConfig(lines).value.rows > 0
    ensures r.Success? ==> r.value.totalSpaces == Config.ParseConfig(lines).value.totalSpaces
                           && r.value.rows == Config.ParseConfig(lines).value.rows
  {
    match Config.ParseConfig(lines)
    case Failure(e) => Failure(BadConfig(e))
    case Success(cfg) =>
      match Initialize(cfg.totalSpaces, cfg.rows)
      case Failure(e) => Failure(BadLayout(e))
      case Success(lot) => Success(lot)
  }

  /** A configuration with a keyed line whose value does not read opens no
      lot: the program stops before the lot is built. */
  lemma BadLineOpensNothing(a: seq<string>, line: string, b: seq<string>)
    requires Config.ParseConfig(a).Success?
    requires Config.LineKey(Config.Strip(line)).Some? && Config.LineValue(Config.Strip(line)).Failure?
    ensures Open(a + [line] + b) == Failure(BadConfig(Config.LineValue(Config.Strip(line)).error))
  {
    Config.BadLineAborts(Config.Settings(0, 0), a, line, b);
  }

  /** The canonical configuration of a lot with a positive row count opens
      as an empty lot of that size and shape. */
  lemma OpenRendered(total: nat, rows: nat)
    requires rows > 0
    ensures Open(Config.RenderConfig(Config.Settings(total, rows))).Success?
    ensures var lot := Open(Config.RenderConfig(Config.Settings(total, rows))).value;
            lot.totalSpaces == total && lot.rows == rows && lot.spaceCount == total / rows
            && lot.availSpaces == total
  {
    Config.RenderParseRoundTrip(Config.Settings(total, rows));
  }

  /** Over any run the counter stays between zero and the number of slots. */
  lemma RunKeepsCounterInRange(lot: Lot, actions: seq<Action>)
    requires lot.Valid()
    requires forall i :: 0 <= i < |actions| ==> InBounds(lot, actions[i])
    ensures 0 <= Run(lot, actions).availSpaces <= lot.totalSpaces
  {
    CounterBounds(Run(lot, actions));
  }
}

=== FILE: spaces.dfy ===
/** Spaces: one parking slot. Like the source, a slot keeps both an optional
    vehicle and an occupancy flag; `WellFormed` says the two agree. */
module Spaces {
  import opened Wrappers
  import opened Vehicles

  datatype Space = Space(vehicle: Option<Vehicle>, occupied: bool) {

    /** The occupancy flag is set exactly when a vehicle is held. */
    predicate WellFormed() {
      occupied <==> vehicle.Some?
    }

    /** A slot is available exactly when it is not occupied; for a
        well-formed slot, exactly when it holds no vehicle. */
    predicate IsAvailable()
      ensures WellFormed() ==> (IsAvailable() <==> vehicle.None?)
    {
      !occupied
    }

    /** The vehicle held, or `None` for an empty slot. */
    function VehicleInfo(): (r: Option<Vehicle>)
      ensures WellFormed() ==> (r.Some? <==> !IsAvailable())
    {
      vehicle
    }
  }

  /** Stores `v` in `s`, whatever it held before, and marks it occupied. */
  function AddVehicle(s: Space, v: Vehicle): (s': Space)
    ensures s'.WellFormed() && !s'.IsAvailable()
    ensures s'.VehicleInfo() == Some(v)
  {
    Space(Some(v), true)
  }

  /** Empties `s` and hands back what it held (`None` if nothing). */
  function RemoveVehicle(s: Space): (r: (Space, Option<Vehicle>))
    ensures r.0.WellFormed() && r.0.IsAvailable()
    ensures r.0.VehicleInfo() == None
    ensures r.1 == s.VehicleInfo()
  {
    (Space(None, false), s.vehicle)
  }

  /** A freshly allocated slot: empty and available. */
  function EmptySpace(): (s: Space)
    ensures s.WellFormed() && s.IsAvailable()
    ensures s.VehicleInfo() == None
  {
    Space(None, false)
  }

  /** Removing what was just added returns that vehicle and leaves the
      slot as a fresh one. */
  lemma AddThenRemove(s: Space, v: Vehicle)
    ensures RemoveVehicle(AddVehicle(s, v)) == (EmptySpace(), Some(v))
  {
  }

  /** Adding back the vehicle removed from an occupied, well-formed slot
      restores the slot. */
  lemma RemoveThenAdd(s: Space)
    requires s.WellFormed() && !s.IsAvailable()
    ensures RemoveVehicle(s).1.Some?
    ensures AddVehicle(RemoveVehicle(s).0, RemoveVehicle(s).1.value) == s
  {
  }
}

=== FILE: vehicles.dfy ===
/** Vehicles: the three vehicle categories, their integer type codes, their
    display names and the hourly rates charged for them. */
module Vehicles {
  import opened Wrappers

  /** The category of a vehicle. The source stores it as the integer code
      1 (car), 2 (truck) or 3 (motorcycle). */
  datatype Kind = Car | Truck | Motorcycle

  /** A parked vehicle: its category, its plate and the second at which it
      entered the lot (a wall-clock reading taken by the caller). */
  datatype Vehicle = Vehicle(kind: Kind, plate: string, entryTime: int)

  /** The integer code under which the source stores a category. */
  function TypeCode(k: Kind): (c: int)
    ensures 1 <= c <= 3
  {
    match k
    case Car => 1
    case Truck => 2
    case Motorcycle => 3
  }

  /** The category of an integer code; only 1, 2 and 3 denote one. */
  function KindOfCode(c: int): (r: Option<Kind>)
    ensures r.Some? <==> 1 <= c <= 3
    ensures r.Some? ==> TypeCode(r.value) == c
  {
    if c == 1 then Some(Car)
    else if c == 2 then Some(Truck)
    else if c == 3 then Some(Motorcycle)
    else None
  }

  lemma TypeCodeRoundTrip(k: Kind)
    ensures KindOfCode(TypeCode(k)) == Some(k)
  {
  }

  /** The display name of a category, as shown for a parked vehicle. */
  function TypeString(k: Kind): (s: string)
    ensures s == (if TypeCode(k) == 1 then "Car" else if TypeCode(k) == 2 then "Truck" else "Motorcycle")
  {
    match k
    case Car => "Car"
    case Truck => "Truck"
    case Motorcycle => "Motorcycle"
  }

  /** The option list of the category selector maps a display name to its
      category; any other text is not an option. */
  function TypeMap(name: string): (r: Option<Kind>)
    ensures r.Some? ==> TypeString(r.value) == name
  {
    if name == "Car" then Some(Car)
    else if name == "Truck" then Some(Truck)
    else if name == "Motorcycle" then Some(Motorcycle)
    else None
  }

  /** Naming a category and looking the name up again gives the category
      back, and the names of distinct categories differ. */
  lemma TypeMapRoundTrip(k: Kind)
    ensures TypeMap(TypeString(k)) == Some(k)
    ensures forall k' :: TypeString(k') == TypeString(k) ==> k' == k
  {
  }

  /** The hourly rate in cents: $3.50 for a car, $4.50 for a truck and
      $2.00 for a motorcycle. */
  function RateCents(k: Kind): (cents: nat)
    ensures cents == (if TypeCode(k) == 1 then 350 else if TypeCode(k) == 2 then 450 else 200)
  {
    match k
    case Car => 350
    case Truck => 450
    case Motorcycle => 200
  }
}

=== FILE: wrappers.dfy ===
/** Failure-carrying result types shared by the parking-lot modules. */
module Wrappers {

  /** An optional value: `None` plays the role of the source's `None`. */
  datatype Option<+T> = None | Some(value: T)

  /** Either a value or the error the source would have raised or reported. */
  datatype Result<+R, +E> = Success(value: R) | Failure(error: E)
}
